=== FILE: README.md ===
# Anonymous-chat matchmaking server, modelled in Dafny

The backend of this anonymous text and video chat keeps two waiting queues
(`text` and `video`) and a list of open rooms, each holding two socket ids.
A client joins a queue with `tc` or `vc`. As soon as two clients wait in the
same queue, the two oldest get a fresh room and hear `match-found` with its
name. In a video room they also hear `ready`, which tells the older one to
start the call. Clients relay `message`, `typing` and `stopTyping` to their
room. A `skip` tears a room down and puts both members back in its queue. A
disconnect tears the leaver's room down, re-queues the other member and
purges the leaver from both queues.

The model is a pure transition system:

- `ServerState.State` holds:
  - the two queues;
  - the room list;
  - a counter that stands in for the random room-name generator;
  - the log of everything the server sends: socket joins, socket leaves and
    emits to a connection, to a room, or to a room except the sender.
- Every handler is a function from the state before it runs to the state
  after it has run to completion.
- `Dispatch.Run` folds a sequence of client inputs over those handlers.

Modules:

- `Queues` holds push, shift and the filter that purges a connection.
- `RoomNames` holds the room names: the decimal rendering of a serial
  number. A parse round trip makes them distinct.
- `Payloads` holds JavaScript values with truthiness and property access, as
  the relay guards use them.
- `ServerState` holds the state, rooms, events, `findIndex` and `splice`.
- `Matchmaker` holds `removeUser`, `makeRoom`, `makeMatch`, the join
  handlers, `handleSkip` and `handleDisconnect`.
- `Relay` holds the `message`, `typing` and `stopTyping` handlers.
- `Presence` counts where each connection is, as queue entries plus room
  seats, and proves which handlers keep that count.
- `Dispatch` holds the whole-server transition and its invariants.
- `Scenarios` holds first-come-first-served pairing, skip and disconnect
  behaviour, and concrete runs.

Properties proved include:

- Room names are never reused.
- Pairing is first come, first served.
- Pairing, skip and the message relays leave every connection's count
  unchanged. A join adds exactly one entry for the joiner. A disconnect
  changes no count but the leaver's. From a state where each connection is
  in at most one place, it leaves the leaver counted nowhere.
- A state where each connection is in at most one place stays that way,
  unless a connection that is already placed joins again.
- From a state with at most one waiter per queue, no handler leaves two
  connections waiting in the same queue. Every state
  reachable from the empty server has at most one waiter per queue and
  distinct room names (`Dispatch.ReachableInvariants`).
- A second skip of the same room does nothing.
- A disconnect sends `peer-disconnected` exactly once and removes the room
  for good. From a state where each connection is in at most one place, the
  peer is still counted exactly once afterwards.
- A message that a member of a room with two distinct members sends to its
  own room reaches exactly the other member. The relay forwards to
  whatever room the payload names, so a client that names another room
  reaches that room's members
  (`Relay.MessageReachesNamedRoom`).

Behaviour of the code that the model keeps:

- `addToQ` does not refuse a connection that is already queued. A client
  that sends `tc` twice on an empty server is paired with itself
  (`Scenarios.DoubleJoinPairsWithSelf`).
- A connection that joins again while seated is counted twice, once in the
  room and once in the queue. A later disconnect tears down only its first
  room and leaves it seated in the second
  (`Scenarios.RejoinThenDisconnectLeavesSeat`).
- `makeMatch` pairs at most once per call (an `if`, not a loop). Every
  handler pushes at most two entries before that attempt. So from a state
  with at most one waiter per queue, the single attempt never leaves a pair
  waiting (`Dispatch.HandleKeepsSettled`).
- A connection that waits in a queue while still seated, as a client does
  when it sends `tc` again after a skip has already re-paired it, and then
  disconnects, has its peer paired straight back with it in a new room
  (`Scenarios.DisconnectRepairsWithLeaver`).
- `handleDisconnect` puts only the other member back in the queue.
  `handleSkip` puts both members back, u1 first.

## Model

| member | source | states |
|---|---|---|
| Queues.AddToQ | backend/src/index.ts:28-30 | the user is appended at the back, with everything already waiting kept in front in the same order; no duplicate check |
| Queues.RemoveFromQ | backend/src/index.ts:32-34 | an empty queue yields nothing and stays empty; otherwise the front entry is returned and the rest is what follows it |
| Queues.Fifo | backend/src/index.ts:28-34 | shifting after a push returns the same front as before the push, and the pushed entry waits at the back of what remains |
| Queues.Without | backend/src/index.ts:37-38 | the filter leaves no entry for the user, takes away all of the user's entries and no others, and leaves a queue without the user unchanged |
| Queues.WithoutDistributes | backend/src/index.ts:37-38 | filtering a concatenation filters each part, so the connections that stay keep their relative order |
| Matchmaker.RemoveUser | backend/src/index.ts:36-39 | the user is in neither queue afterwards, every other entry is kept, and rooms and outputs are untouched |
| RoomNames.DigitValue | backend/src/index.ts:42 | a character is a digit exactly when it has a digit value, and that value renders back to the character |
| RoomNames.ParseDecimalInverts | backend/src/index.ts:42 | parsing the decimal name issued for a serial gives back that serial, so the name determines the serial |
| RoomNames.IssuedNamesDistinct | backend/src/index.ts:42 | two serials get the same room name if and only if they are equal |
| RoomNames.FreshName | backend/src/index.ts:42 | the next name to issue differs from every name issued so far |
| RoomNames.IssuedNameIssued | backend/src/index.ts:42 | a freshly issued name is non-empty, was not issued before, and counts as issued afterwards |
| Matchmaker.MakeRoom | backend/src/index.ts:41-45 | the new room holds the two users and the queue kind and is appended to the room list; its name differs from every open room's name, and distinct room names are preserved |
| Matchmaker.MakeMatch | backend/src/index.ts:47-69 | with fewer than two waiters nothing changes; otherwise the two oldest are removed, share a new room in arrival order, both sockets join it and hear `match-found`, and in a video room the older one hears `ready` as initiator and the younger as non-initiator |
| Matchmaker.JoinQueue | backend/src/index.ts:156-160 | a join to an empty queue waits and hears the waiting text; otherwise the two oldest entries of the queue with the joiner at the back are paired in a new room, so a join to a queue holding one waiter is paired with it (and every reachable state has at most one waiter); the other queue is untouched |
| Matchmaker.HandleSkip | backend/src/index.ts:71-103 | an unknown name changes nothing; otherwise the first room of that name is torn down (`peer-disconnected`, both leave), both members go to the back of its queue with u1 first, and the two oldest of that queue are paired at once |
| Matchmaker.VacateRoom | backend/src/index.ts:105-135 | for a connection in no room nothing changes; otherwise the first room holding it is torn down, only the other member is pushed back, and one pairing is tried |
| Matchmaker.HandleDisconnect | backend/src/index.ts:105-137 | the leaver is in neither queue afterwards; the room teardown and the re-queueing of the other member happen as described, followed by the purge in every case |
| Matchmaker.DisconnectKeepsNames | backend/src/index.ts:105-137 | a disconnect never makes two open rooms share a name |
| Matchmaker.VacateLogShape | backend/src/index.ts:116-133 | before the purge, a disconnect sends the teardown first and then exactly the notices of the one pairing it makes when the other member finds someone waiting (nothing otherwise), so no second `peer-disconnected` |
| ServerState.FindIndex | backend/src/index.ts:73-75 | the result is the first position satisfying the predicate, and there is none exactly when no element satisfies it |
| ServerState.RemoveAt | backend/src/index.ts:90 | `splice(i, 1)` keeps the elements before `i` in place and shifts those after it down by one |
| Relay.OnMessage | backend/src/index.ts:163-166 | a falsy payload, room or message is dropped with no effect; otherwise exactly one `message` event carrying `data.message` goes to `data.room` excluding the sender; queues and rooms never change |
| Relay.OnTyping | backend/src/index.ts:169-172 | a falsy payload or room is dropped; otherwise one `typing` event goes to `data.room` excluding the sender |
| Relay.OnStopTyping | backend/src/index.ts:175-178 | a falsy payload or room is dropped; otherwise one `stopTyping` event goes to `data.room` excluding the sender |
| Relay.MessageReachesOnlyPeer | backend/src/index.ts:163-166 | a message that a member of a room with two distinct members sends to its own room is addressed to the other member and to no one else |
| Relay.MessageReachesNamedRoom | backend/src/index.ts:163-166 | the relay does not check membership: a message naming an open room reaches both of its members other than the sender, whoever sends it |
| Payloads.Get | backend/src/index.ts:164 | for the keys `room` and `message`, which no primitive or `Object.prototype` carries, property access reads an object's own field and `undefined` in every other case |
| Presence.MakeMatchKeepsOccupancy | backend/src/index.ts:47-69 | pairing moves two queue entries into a room seat each, so every connection's count is unchanged |
| Presence.SkipKeepsOccupancy | backend/src/index.ts:71-103 | a skip moves both members from seats back into the queue (and possibly into a new room), so every connection's count is unchanged |
| Presence.JoinAddsOne | backend/src/index.ts:156-160 | a join adds exactly one entry for the joiner and changes no other count |
| Presence.VacateRoomOccupancy | backend/src/index.ts:105-135 | before the purge, a disconnect takes away exactly the leaver's seat |
| Presence.PurgeOccupancy | backend/src/index.ts:36-39 | the purge removes every queue entry of the user and leaves everyone else's count unchanged |
| Presence.DisconnectVacates | backend/src/index.ts:105-137 | a disconnect leaves everyone else's count unchanged, and from a state where each connection is in at most one place it leaves the leaver nowhere |
| Presence.LifecycleKeepsExclusive | backend/src/index.ts:47-137 | pairing, skipping and disconnecting keep every connection in at most one place |
| Presence.JoinExclusiveIff | backend/src/index.ts:156-160 | from a state where each connection is in at most one place, a join keeps that so exactly when the joiner was nowhere before |
| Dispatch.Handle | backend/src/index.ts:152-209 | every handler keeps room names distinct, never winds the name counter back, and only appends to what was sent |
| Dispatch.HandleKeepsSettled | backend/src/index.ts:152-209 | if each queue holds at most one waiter before an event, it still does afterwards |
| Dispatch.HandleKeepsExclusive | backend/src/index.ts:152-209 | any event except a repeated join keeps every connection in at most one place |
| Dispatch.Run | backend/src/index.ts:152-209 | any run of events keeps room names distinct, keeps the queues at one waiter each from such a state, and only appends outputs |
| Dispatch.ReachableInvariants | backend/src/index.ts:152-209 | every state reachable from the empty server by any run of events has distinct room names and at most one waiter per queue |
| Scenarios.PairUpPairsNeighbours | backend/src/index.ts:47-52 | the j-th first-come-first-served room holds the (2j+1)-th and (2j+2)-th arrivals under the j-th serial name |
| Scenarios.TwoJoinsPair | backend/src/index.ts:156-160 | of two joins to an empty queue, the first waits and the second pairs with it |
| Scenarios.FifoPairing | backend/src/index.ts:156-160 | any sequence of joins to an empty queue pairs the arrivals two by two in arrival order and leaves an odd one out waiting |
| Scenarios.SkipAloneRepairsSamePair | backend/src/index.ts:93-100 | skipping a room whose queue is empty puts the same two members into a new, differently named room, and a later joiner waits alone |
| Scenarios.SkipTwiceIsSkipOnce | backend/src/index.ts:71-103 | a second skip of the same room name changes nothing |
| Scenarios.DisconnectKeepsPeer | backend/src/index.ts:117-136 | from a state where each connection is in at most one place, the leaver's peer is still counted exactly once (waiting or re-paired) and the leaver is counted nowhere |
| Scenarios.DisconnectRemovesRoom | backend/src/index.ts:105-137 | after a disconnect no open room carries the torn-down room's name |
| Scenarios.DisconnectNotifiesOnce | backend/src/index.ts:116-118 | a disconnect sends `peer-disconnected` to the room first and exactly once |
| Scenarios.TwoJoinersShareARoom | backend/src/index.ts:156-160 | two text joiners on an empty server share room "0" and hear exactly the waiting text and `match-found` |
| Scenarios.VideoPairingIsAsymmetric | backend/src/index.ts:62-65 | of two video joiners, the first hears `ready` as initiator and the second as non-initiator |
| Scenarios.DoubleJoinPairsWithSelf | backend/src/index.ts:28-30 | a connection that joins twice on an empty server is paired with itself |
| Scenarios.RejoinThenDisconnectLeavesSeat | backend/src/index.ts:105-137 | a connection that joins again while seated is paired a second time, and its disconnect tears down only the first room, leaving it seated in the second |
| Scenarios.DisconnectRepairsWithLeaver | backend/src/index.ts:127-136 | a leaver that was also waiting in its room's queue is paired again with its peer in a new room before the purge, so the peer is seated with a connection that has gone |

## Left out

- The Express app, CORS, the HTTP route and `listen` are transport only.
- Logging to the console has no effect on the state.
- The `offer`, `answer` and `ice` handlers are left out. They relay WebRTC
  signalling verbatim, like `typing`, and touch no state.
- The `skip` handler reads `room.room` from its payload. A missing or null
  payload makes it throw. Any other payload gives `room.room` whatever that
  field holds (`undefined` when it is absent). A value that is no open
  room's name makes `handleSkip` find no room and do nothing. The
  model takes the room name as given (`Dispatch.Input.SkipRoom`).
- `io.sockets.sockets.get(u)?.join(name)` is left out: the socket lookup
  silently skips a connection that is already gone. The model logs every
  join and leave unconditionally.
- `randomUUID` is replaced by a counter rendered in decimal. Only the
  property the code relies on, that a new name differs from every earlier
  one, is modelled; the name's format is not.
- The `queue` field of a room is the string `"text"` or `"video"` in the
  source. It is a two-valued kind here, because nothing else is ever
  stored. The source's third branch (neither kind) in skip and disconnect
  is therefore unreachable and not modelled.
- JavaScript numbers are modelled as integers plus `NaN`. Fractional
  numbers and `-0` do not change any truthiness result the handlers depend
  on.
- Payloads.Value has no array case. An array is always truthy in
  JavaScript, so an array `data.room` or `data.message` passes the relay
  guards. The model has no array value to forward.
- Relay.MessageReachesOnlyPeer: delivery is stated only for room names the
  server issued. Socket.io room membership is taken to be exactly that of
  the open rooms, and a socket's own id room is not modelled. A connection
  that has disconnected can still be seated in an open room
  (`Scenarios.RejoinThenDisconnectLeavesSeat`,
  `Scenarios.DisconnectRepairsWithLeaver`), while socket.io has already
  removed it from every room. So "reaches" means "is addressed to", not
  "is received by".
- The frontend and the background worker are not part of this model.

=== FILE: dispatch.dfy ===
/** The per-connection event handlers wired up on `connection`, as one
    transition function over the inputs a client can cause, and runs of
    such inputs. Each handler runs to completion before the next input
    is taken, so a run is a left fold of `Handle`. */
module Dispatch {
  import opened Payloads
  import opened ServerState
  import opened Matchmaker
  import opened Relay
  import opened Presence
  import opened Wrappers

  datatype Input =
    | Tc(conn: ConnId)
    | Vc(conn: ConnId)
    | MessageFrom(conn: ConnId, data: Value)
    | TypingFrom(conn: ConnId, data: Value)
    | StopTypingFrom(conn: ConnId, data: Value)
    | SkipRoom(room: string)
    | Disconnected(conn: ConnId)

  /** Nobody is left waiting while a partner waits in the same queue:
      each queue holds at most one connection. */
  predicate Settled(s: State)
  {
    |s.textQueue| <= 1 && |s.videoQueue| <= 1
  }

  /** One input, handled to completion. */
  function Handle(s: State, e: Input): (r: State)
    ensures UniqueRoomNames(s) ==> UniqueRoomNames(r)
    ensures r.nextSerial >= s.nextSerial
    ensures s.log <= r.log
  {
    match e
    case Tc(c) => JoinQueue(s, Text, c)
    case Vc(c) => JoinQueue(s, Video, c)
    case MessageFrom(c, data) => OnMessage(s, c, data)
    case TypingFrom(c, data) => OnTyping(s, c, data)
    case StopTypingFrom(c, data) => OnStopTyping(s, c, data)
    case SkipRoom(name) => HandleSkip(s, name)
    case Disconnected(c) =>
      DisconnectAppends(s, c);
      HandleDisconnect(s, c)
  }

  /** A disconnect only appends to the log, never winds the name counter
      back, and never reuses a room name. */
  lemma DisconnectAppends(s: State, id: ConnId)
    ensures var r := HandleDisconnect(s, id);
      && s.log <= r.log
      && r.nextSerial >= s.nextSerial
      && (UniqueRoomNames(s) ==> UniqueRoomNames(r))
  {
    DisconnectIsVacateThenPurge(s, id);
    var v := VacateRoom(s, id);
    if FindIndex(s.rooms, HasMember(id)).Some? {
      var i := FindIndex(s.rooms, HasMember(id)).value;
      LogPrefix(s, id, i);
    }
    if UniqueRoomNames(s) {
      DisconnectKeepsNames(s, id);
    }
  }

  lemma LogPrefix(s: State, id: ConnId, i: nat)
    requires FindIndex(s.rooms, HasMember(id)) == Some(i)
    ensures s.log <= VacateRoom(s, id).log
  {
    var v := VacateRoom(s, id);
    VacateLogShape(s, id, i);
    assert v.log[..|s.log|] == v.log[..|s.log| + 3][..|s.log|];
  }

  /** A run of inputs, handled one after another. */
  function Run(s: State, inputs: seq<Input>): (r: State)
    ensures UniqueRoomNames(s) ==> UniqueRoomNames(r)
    ensures Settled(s) ==> Settled(r)
    ensures r.nextSerial >= s.nextSerial
    ensures s.log <= r.log
    decreases |inputs|
  {
    if |inputs| == 0 then s
    else
      HandleKeepsSettled(s, inputs[0]);
      Run(Handle(s, inputs[0]), inputs[1..])
  }

  /** Every state reachable from the empty server has distinct room names
      and at most one waiter per queue. */
  lemma ReachableInvariants(inputs: seq<Input>)
    ensures var r := Run(Initial, inputs);
      && UniqueRoomNames(r)
      && Settled(r)
  {
    assert UniqueRoomNames(Initial) && Settled(Initial);
  }

  /** Every handler pairs as soon as two connections wait in one queue,
      so one pairing attempt per handler is enough: no handler leaves two
      connections waiting in the same queue. */
  lemma HandleKeepsSettled(s: State, e: Input)
    ensures Settled(s) ==> Settled(Handle(s, e))
  {
    if Settled(s) {
      match e
      case Tc(c) =>
      case Vc(c) =>
      case MessageFrom(_, _) =>
      case TypingFrom(_, _) =>
      case StopTypingFrom(_, _) =>
      case SkipRoom(name) =>
      case Disconnected(c) => DisconnectKeepsSettled(s, c);
    }
  }

  /** Putting the abandoned partner back pairs them at once if someone
      was already waiting, so the queue they rejoin stays short. */
  lemma VacateKeepsSettled(s: State, id: ConnId)
    requires Settled(s)
    ensures Settled(VacateRoom(s, id))
  {
    var v := VacateRoom(s, id);
    if FindIndex(s.rooms, HasMember(id)).Some? {
      var i := FindIndex(s.rooms, HasMember(id)).value;
      var k := s.rooms[i].queue;
      assert |Queue(v, k)| <= 1;
      assert |Queue(v, Other(k))| <= 1;
      match k
      case Text =>
      case Video =>
    }
  }

  lemma DisconnectKeepsSettled(s: State, id: ConnId)
    requires Settled(s)
    ensures Settled(HandleDisconnect(s, id))
  {
    DisconnectIsVacateThenPurge(s, id);
    VacateKeepsSettled(s, id);
  }

  /** From an exclusive state, every input keeps the state exclusive
      except a join by a connection already waiting or seated. */
  lemma HandleKeepsExclusive(s: State, e: Input)
    requires Exclusive(s)
    requires (e.Tc? || e.Vc?) ==> Occupancy(s)[e.conn] == 0
    ensures Exclusive(Handle(s, e))
  {
    match e
    case Tc(c) => JoinExclusiveIff(s, Text, c);
    case Vc(c) => JoinExclusiveIff(s, Video, c);
    case MessageFrom(_, _) =>
      assert Occupancy(Handle(s, e)) == Occupancy(s);
    case TypingFrom(_, _) =>
      assert Occupancy(Handle(s, e)) == Occupancy(s);
    case StopTypingFrom(_, _) =>
      assert Occupancy(Handle(s, e)) == Occupancy(s);
    case SkipRoom(name) => LifecycleKeepsExclusive(s, Text, name, "");
    case Disconnected(c) => LifecycleKeepsExclusive(s, Text, "", c);
  }
}

=== FILE: matchmaker.dfy ===
/** The matchmaking and room-lifecycle handlers: `removeUser`,
    `makeRoom`, `makeMatch`, `handleSkip`, `handleDisconnect`, and the
    `tc`/`vc` join handlers. Each is a pure transition from the state
    before the handler runs to the state after it has run to completion. */
module Matchmaker {
  import opened Wrappers
  import opened Queues
  import opened ServerState
  import RoomNames

  /** Purges `user` from both queues; rooms, counter and log are untouched. */
  function RemoveUser(s: State, user: ConnId): (r: State)
    ensures user !in r.textQueue && user !in r.videoQueue
    ensures multiset(r.textQueue) == multiset(s.textQueue)[user := 0]
    ensures multiset(r.videoQueue) == multiset(s.videoQueue)[user := 0]
    ensures Queue(r, Text) == Without(Queue(s, Text), user)
    ensures Queue(r, Video) == Without(Queue(s, Video), user)
    ensures r.rooms == s.rooms && r.nextSerial == s.nextSerial && r.log == s.log
  {
    s.(textQueue := Without(s.textQueue, user), videoQueue := Without(s.videoQueue, user))
  }

  lemma PurgedQueues(s: State, user: ConnId)
    ensures forall k :: Queue(RemoveUser(s, user), k) == Without(Queue(s, k), user)
  {
    forall k ensures Queue(RemoveUser(s, user), k) == Without(Queue(s, k), user) {
      match k
      case Text =>
      case Video =>
    }
  }

  /** Appends a room for `u1` and `u2` under a name never used before. */
  function MakeRoom(s: State, u1: ConnId, u2: ConnId, k: Kind): (r: (State, Room))
    ensures r.1.u1 == u1 && r.1.u2 == u2 && r.1.queue == k
    ensures r.0.rooms == s.rooms + [r.1]
    ensures UniqueRoomNames(s) ==> UniqueRoomNames(r.0)
    ensures UniqueRoomNames(s) ==> forall i :: 0 <= i < |s.rooms| ==> s.rooms[i].name != r.1.name
    ensures r.0.textQueue == s.textQueue && r.0.videoQueue == s.videoQueue && r.0.log == s.log
  {
    var name := RoomNames.IssuedName(s.nextSerial);
    var room := Room(name, u1, u2, k);
    var s' := s.(rooms := s.rooms + [room], nextSerial := s.nextSerial + 1);
    if UniqueRoomNames(s) then
      assert forall i :: 0 <= i < |s.rooms| ==>
          RoomNames.IssuedBefore(s.rooms[i].name, s.nextSerial + 1) && s.rooms[i].name != name by {
        forall i | 0 <= i < |s.rooms|
          ensures RoomNames.IssuedBefore(s.rooms[i].name, s.nextSerial + 1) && s.rooms[i].name != name
        {
          RoomNames.FreshName(s.nextSerial, s.rooms[i].name);
        }
      }
      RoomNames.IssuedNameIssued(s.nextSerial);
      (s', room)
    else
      (s', room)
  }

  /** What a successful pairing sends: both sockets join the room, both
      hear `match-found` with its name, and in a video room the older
      entry is told it initiates the call and the younger that it does not. */
  function Pairing(u1: ConnId, u2: ConnId, name: string, k: Kind): seq<Output>
  {
    [Join(u1, name), Join(u2, name),
     Emit(ToConn(u1), MatchFound(name)), Emit(ToConn(u2), MatchFound(name))]
    + (if k == Video then [Emit(ToConn(u1), Ready(true)), Emit(ToConn(u2), Ready(false))] else [])
  }

  /** What tearing a room down sends: `peer-disconnected` to everyone
      still in the room, then both members leave it. */
  function Teardown(room: Room): seq<Output>
  {
    [Emit(ToRoom(room.name), PeerDisconnected), Leave(room.u1, room.name), Leave(room.u2, room.name)]
  }

  /** Pairs the two oldest entries of one queue, at most once per call. */
  function MakeMatch(s: State, k: Kind): (r: State)
    ensures |Queue(s, k)| < 2 ==> r == s
    ensures |Queue(s, k)| >= 2 ==>
      var q := Queue(s, k);
      var name := RoomNames.IssuedName(s.nextSerial);
      && Queue(r, k) == q[2..]
      && Queue(r, Other(k)) == Queue(s, Other(k))
      && r.rooms == s.rooms + [Room(name, q[0], q[1], k)]
      && r.nextSerial == s.nextSerial + 1
      && r.log == s.log + Pairing(q[0], q[1], name, k)
    ensures UniqueRoomNames(s) ==> UniqueRoomNames(r)
  {
    var q := Queue(s, k);
    if |q| >= 2 then
      var (front1, q1) := RemoveFromQ(q);
      var (front2, q2) := RemoveFromQ(q1);
      var (s1, room) := MakeRoom(WithQueue(s, k, q2), front1.value, front2.value, k);
      s1.(log := s1.log + Pairing(room.u1, room.u2, room.name, k))
    else
      s
  }

  /** Removes room `i` from the store, announcing the teardown. */
  function Detach(s: State, i: nat): (r: State)
    requires i < |s.rooms|
    ensures r.rooms == RemoveAt(s.rooms, i)
    ensures r.log == s.log + Teardown(s.rooms[i])
    ensures r.textQueue == s.textQueue && r.videoQueue == s.videoQueue && r.nextSerial == s.nextSerial
    ensures UniqueRoomNames(s) ==> UniqueRoomNames(r)
  {
    s.(rooms := RemoveAt(s.rooms, i), log := s.log + Teardown(s.rooms[i]))
  }

  /** The `tc` and `vc` handlers: enqueue the caller, tell it to wait,
      then try one pairing on that queue. */
  function JoinQueue(s: State, k: Kind, id: ConnId): (r: State)
    ensures |Queue(s, k)| == 0 ==>
      && Queue(r, k) == [id]
      && r.rooms == s.rooms && r.nextSerial == s.nextSerial
      && r.log == s.log + [Emit(ToConn(id), Waiting(WaitingText))]
    ensures |Queue(s, k)| >= 1 ==>
      var q := Queue(s, k) + [id];
      var name := RoomNames.IssuedName(s.nextSerial);
      && Queue(r, k) == q[2..]
      && r.rooms == s.rooms + [Room(name, q[0], q[1], k)]
      && r.nextSerial == s.nextSerial + 1
      && r.log == s.log + [Emit(ToConn(id), Waiting(WaitingText))] + Pairing(q[0], q[1], name, k)
    ensures Queue(r, Other(k)) == Queue(s, Other(k))
    ensures UniqueRoomNames(s) ==> UniqueRoomNames(r)
  {
    var s1 := WithQueue(s, k, AddToQ(Queue(s, k), id));
    MakeMatch(s1.(log := s1.log + [Emit(ToConn(id), Waiting(WaitingText))]), k)
  }

  /** `handleSkip(roomName)`: an unknown name changes nothing; otherwise
      the first room of that name is torn down, both members go to the
      back of its queue (u1 first), and one pairing is tried. Because two
      entries were just pushed, that pairing always happens. */
  function HandleSkip(s: State, roomName: string): (r: State)
    ensures (forall j :: 0 <= j < |s.rooms| ==> s.rooms[j].name != roomName) ==> r == s
    ensures FindIndex(s.rooms, Named(roomName)).Some? ==>
      var i := FindIndex(s.rooms, Named(roomName)).value;
      var room := s.rooms[i];
      var k := room.queue;
      var q := Queue(s, k) + [room.u1, room.u2];
      var name := RoomNames.IssuedName(s.nextSerial);
      && r.rooms == RemoveAt(s.rooms, i) + [Room(name, q[0], q[1], k)]
      && Queue(r, k) == q[2..]
      && Queue(r, Other(k)) == Queue(s, Other(k))
      && r.nextSerial == s.nextSerial + 1
      && r.log == s.log + Teardown(room) + Pairing(q[0], q[1], name, k)
    ensures UniqueRoomNames(s) ==> UniqueRoomNames(r)
  {
    match FindIndex(s.rooms, Named(roomName))
    case None => s
    case Some(i) =>
      var room := s.rooms[i];
      var s1 := Detach(s, i);
      var q := AddToQ(AddToQ(Queue(s1, room.queue), room.u1), room.u2);
      MakeMatch(WithQueue(s1, room.queue, q), room.queue)
  }

  /** The part of `handleDisconnect` that runs before the queue purge:
      tear down the first room holding `id` and push the other member
      back on its queue, then try one pairing. */
  function VacateRoom(s: State, id: ConnId): (r: State)
    ensures FindIndex(s.rooms, HasMember(id)).None? ==> r == s
    ensures FindIndex(s.rooms, HasMember(id)).Some? ==>
      var i := FindIndex(s.rooms, HasMember(id)).value;
      var room := s.rooms[i];
      var k := room.queue;
      var other := if room.u1 == id then room.u2 else room.u1;
      var q := Queue(s, k) + [other];
      var name := RoomNames.IssuedName(s.nextSerial);
      && Queue(r, Other(k)) == Queue(s, Other(k))
      && (|q| >= 2 ==>
          && r.rooms == RemoveAt(s.rooms, i) + [Room(name, q[0], q[1], k)]
          && Queue(r, k) == q[2..]
          && r.nextSerial == s.nextSerial + 1
          && r.log == s.log + Teardown(room) + Pairing(q[0], q[1], name, k))
      && (|q| < 2 ==>
          && r.rooms == RemoveAt(s.rooms, i)
          && Queue(r, k) == q
          && r.nextSerial == s.nextSerial
          && r.log == s.log + Teardown(room))
    ensures UniqueRoomNames(s) ==> UniqueRoomNames(r)
  {
    match FindIndex(s.rooms, HasMember(id))
    case None => s
    case Some(i) =>
      var room := s.rooms[i];
      var other := if room.u1 == id then room.u2 else room.u1;
      var k := room.queue;
      var s1 := Detach(s, i);
      var s2 := WithQueue(s1, k, AddToQ(Queue(s1, k), other));
      assert Queue(s2, k) == Queue(s, k) + [other];
      assert Queue(s2, Other(k)) == Queue(s, Other(k));
      MakeMatch(s2, k)
  }

  /** `handleDisconnect(id)`: if `id` is in a room, the first such room is
      torn down, only the other member is pushed back on its queue, and
      one pairing is tried; in every case `id` is then purged from both
      queues. */
  function HandleDisconnect(s: State, id: ConnId): (r: State)
    ensures id !in r.textQueue && id !in r.videoQueue
    ensures FindIndex(s.rooms, HasMember(id)).None? ==>
      r == s.(textQueue := Without(s.textQueue, id), videoQueue := Without(s.videoQueue, id))
    ensures FindIndex(s.rooms, HasMember(id)).Some? ==>
      var i := FindIndex(s.rooms, HasMember(id)).value;
      var room := s.rooms[i];
      var k := room.queue;
      var other := if room.u1 == id then room.u2 else room.u1;
      var q := Queue(s, k) + [other];
      var name := RoomNames.IssuedName(s.nextSerial);
      && Queue(r, Other(k)) == Without(Queue(s, Other(k)), id)
      && (|q| >= 2 ==>
          && r.rooms == RemoveAt(s.rooms, i) + [Room(name, q[0], q[1], k)]
          && Queue(r, k) == Without(q[2..], id)
          && r.nextSerial == s.nextSerial + 1
          && r.log == s.log + Teardown(room) + Pairing(q[0], q[1], name, k))
      && (|q| < 2 ==>
          && r.rooms == RemoveAt(s.rooms, i)
          && Queue(r, k) == Without(q, id)
          && r.nextSerial == s.nextSerial
          && r.log == s.log + Teardown(room))
  {
    var v := VacateRoom(s, id);
    var r := RemoveUser(v, id);
    PurgedQueues(v, id);
    r
  }

  /** A disconnect never reuses a room name. */
  lemma DisconnectKeepsNames(s: State, id: ConnId)
    requires UniqueRoomNames(s)
    ensures UniqueRoomNames(HandleDisconnect(s, id))
  {
    assert HandleDisconnect(s, id) == RemoveUser(VacateRoom(s, id), id);
  }

  /** Before its purge, a disconnect keeps the other rooms in order and
      adds at most one room, named by the next serial. */
  lemma VacateRoomsShape(s: State, id: ConnId, i: nat)
    requires FindIndex(s.rooms, HasMember(id)) == Some(i)
    ensures var v := VacateRoom(s, id);
      var kept := RemoveAt(s.rooms, i);
      && |kept| <= |v.rooms| <= |kept| + 1
      && v.rooms[..|kept|] == kept
      && (|v.rooms| == |kept| + 1 ==> v.rooms[|kept|].name == RoomNames.IssuedName(s.nextSerial))
  {
  }

  /** Before its purge, a disconnect logs the teardown and then exactly
      the notices of the one pairing it may make, which carry no second
      `peer-disconnected`. */
  lemma VacateLogShape(s: State, id: ConnId, i: nat)
    requires FindIndex(s.rooms, HasMember(id)) == Some(i)
    ensures var v := VacateRoom(s, id);
      var room := s.rooms[i];
      var k := room.queue;
      var q := Queue(s, k) + [if room.u1 == id then room.u2 else room.u1];
      && |v.log| >= |s.log| + 3
      && v.log[..|s.log| + 3] == s.log + Teardown(room)
      && v.log[|s.log| + 3..] == (if |q| >= 2 then Pairing(q[0], q[1], RoomNames.IssuedName(s.nextSerial), k) else [])
      && forall o :: o in v.log[|s.log| + 3..] ==> !(o.Emit? && o.event == PeerDisconnected)
  {
    var room := s.rooms[i];
    var v := VacateRoom(s, id);
    var k := room.queue;
    var other := if room.u1 == id then room.u2 else room.u1;
    var q := Queue(s, k) + [other];
    var tail: seq<Output> :=
      if |q| >= 2 then Pairing(q[0], q[1], RoomNames.IssuedName(s.nextSerial), k) else [];
    if |q| >= 2 {
      PairingSendsNoNotice(q[0], q[1], RoomNames.IssuedName(s.nextSerial), k);
    }
    assert v.log == (s.log + Teardown(room)) + tail;
    assert v.log[..|s.log| + 3] == s.log + Teardown(room);
    assert v.log[|s.log| + 3..] == tail;
  }

  lemma PairingSendsNoNotice(u1: ConnId, u2: ConnId, name: string, k: Kind)
    ensures forall o :: o in Pairing(u1, u2, name, k) ==> !(o.Emit? && o.event == PeerDisconnected)
  {
  }
}

=== FILE: payloads.dfy ===
/** The JavaScript values a client may send as an event payload, and the
    two operations the relay guards apply to them: truthiness (`!x`) and
    property access (`x.room`). */
module Payloads {

  /** Numbers are modelled as integers; `NaN` is kept because it is falsy. */
  datatype Value =
    | Undefined
    | Null
    | Bool(b: bool)
    | Num(n: int)
    | NaN
    | Str(s: string)
    | Obj(fields: map<string, Value>)

  /** JavaScript truthiness: `undefined`, `null`, `false`, `0`, `NaN` and
      the empty string are falsy, every object is truthy. */
  predicate Truthy(v: Value)
  {
    match v
    case Undefined => false
    case Null => false
    case Bool(b) => b
    case Num(n) => n != 0
    case NaN => false
    case Str(s) => s != ""
    case Obj(_) => true
  }

  /** Property access `v.key` for the keys the relay guards read, `room`
      and `message`: an object's own field, and `undefined` when it has no
      such field or `v` is a primitive, since no primitive and nothing on
      `Object.prototype` carries those keys. Inherited properties such as
      `length` or `constructor` are not modelled. Reading a property of
      `undefined` or `null` throws in JavaScript, but the guards only read
      `data.room` after checking `data` is truthy. */
  function Get(v: Value, key: string): (r: Value)
    ensures (v.Obj? && key in v.fields) ==> r == v.fields[key]
    ensures !(v.Obj? && key in v.fields) ==> r == Undefined
  {
    match v
    case Obj(fields) => if key in fields then fields[key] else Undefined
    case _ => Undefined
  }
}

=== FILE: presence.dfy ===
/** Who is where. The occupancy of a state counts, for every connection,
    its entries in the two queues plus its seats in open rooms. A state
    is exclusive when every connection is counted at most once: nobody
    waits twice, waits in both queues, waits while seated, sits in two
    rooms, or is paired with itself.

    The handlers keep occupancy exactly: pairing and skipping only move
    connections between a queue and a room, joining adds one entry, and
    disconnecting removes the leaver and nobody else. Exclusivity is
    therefore kept by every handler except a join by a connection that
    is already waiting or seated, which the server does not refuse. */
module Presence {
  import opened Queues
  import opened ServerState
  import opened Matchmaker

  function RoomMembers(rooms: seq<Room>): multiset<ConnId>
    decreases |rooms|
  {
    if |rooms| == 0 then multiset{}
    else multiset{rooms[0].u1, rooms[0].u2} + RoomMembers(rooms[1..])
  }

  function Occupancy(s: State): multiset<ConnId>
  {
    multiset(s.textQueue) + multiset(s.videoQueue) + RoomMembers(s.rooms)
  }

  ghost predicate Exclusive(s: State)
  {
    forall x :: Occupancy(s)[x] <= 1
  }

  lemma OccupancyByKind(s: State, k: Kind)
    ensures Occupancy(s) == multiset(Queue(s, k)) + multiset(Queue(s, Other(k))) + RoomMembers(s.rooms)
  {
  }

  lemma {:induction false} RoomMembersAppend(a: seq<Room>, b: seq<Room>)
    ensures RoomMembers(a + b) == RoomMembers(a) + RoomMembers(b)
    decreases |a|
  {
    if |a| == 0 {
      assert a + b == b;
    } else {
      assert (a + b)[1..] == a[1..] + b;
      RoomMembersAppend(a[1..], b);
    }
  }

  lemma RoomMembersCons(room: Room, b: seq<Room>)
    ensures RoomMembers([room] + b) == multiset{room.u1, room.u2} + RoomMembers(b)
  {
    assert ([room] + b)[1..] == b;
  }

  lemma SpliceParts<T>(xs: seq<T>, i: nat)
    requires i < |xs|
    ensures xs == xs[..i] + ([xs[i]] + xs[i + 1..])
    ensures RemoveAt(xs, i) == xs[..i] + xs[i + 1..]
  {
  }

  /** Splicing a room out of the list takes exactly its two members out. */
  lemma RoomMembersRemoveAt(rooms: seq<Room>, i: nat)
    requires i < |rooms|
    ensures RoomMembers(rooms) == RoomMembers(RemoveAt(rooms, i)) + multiset{rooms[i].u1, rooms[i].u2}
  {
    var a, b := rooms[..i], rooms[i + 1..];
    SpliceParts(rooms, i);
    RoomMembersAppend(a, [rooms[i]] + b);
    RoomMembersCons(rooms[i], b);
    RoomMembersAppend(a, b);
  }

  /** A connection no room holds has no seat. */
  lemma {:induction false} NoSeat(rooms: seq<Room>, id: ConnId)
    requires forall j :: 0 <= j < |rooms| ==> !HasMember(id)(rooms[j])
    ensures RoomMembers(rooms)[id] == 0
    decreases |rooms|
  {
    if |rooms| > 0 {
      NoSeat(rooms[1..], id);
    }
  }

  /** Moving the two oldest entries of a queue into a new room keeps
      everyone counted once as before. */
  lemma SeatingKeepsOccupancy(s: State, r: State, k: Kind, room: Room)
    requires |Queue(s, k)| >= 2
    requires Queue(r, k) == Queue(s, k)[2..] && Queue(r, Other(k)) == Queue(s, Other(k))
    requires r.rooms == s.rooms + [room]
    requires room.u1 == Queue(s, k)[0] && room.u2 == Queue(s, k)[1]
    ensures Occupancy(r) == Occupancy(s)
  {
    var q := Queue(s, k);
    RoomMembersAppend(s.rooms, [room]);
    assert [room][1..] == [];
    assert RoomMembers(r.rooms) == RoomMembers(s.rooms) + multiset{q[0], q[1]};
    assert multiset(q) == multiset{q[0], q[1]} + multiset(q[2..]) by {
      assert q == [q[0], q[1]] + q[2..];
    }
    OccupancyByKind(s, k);
    OccupancyByKind(r, k);
  }

  /** Pairing moves the two oldest entries of a queue into a room:
      nobody appears or disappears. */
  lemma MakeMatchKeepsOccupancy(s: State, k: Kind)
    ensures Occupancy(MakeMatch(s, k)) == Occupancy(s)
  {
    if |Queue(s, k)| >= 2 {
      var r := MakeMatch(s, k);
      SeatingKeepsOccupancy(s, r, k, r.rooms[|s.rooms|]);
    }
  }

  lemma Cancel<T>(a: multiset<T>, b: multiset<T>, c: multiset<T>)
    requires a + c == b + c
    ensures a == b
  {
    assert forall x :: a[x] == (a + c)[x] - c[x];
  }

  /** Splicing room `i` out and appending `added` to a queue trades the
      room's two seats for the added entries. */
  lemma UnseatingOccupancy(s: State, r: State, i: nat, k: Kind, added: seq<ConnId>)
    requires i < |s.rooms|
    requires r.rooms == RemoveAt(s.rooms, i)
    requires Queue(r, k) == Queue(s, k) + added && Queue(r, Other(k)) == Queue(s, Other(k))
    ensures Occupancy(r) + multiset{s.rooms[i].u1, s.rooms[i].u2} == Occupancy(s) + multiset(added)
  {
    RoomMembersRemoveAt(s.rooms, i);
    OccupancyByKind(s, k);
    OccupancyByKind(r, k);
  }

  /** A skip moves the two members of the room back into its queue and
      pairs from there: nobody appears or disappears. */
  lemma SkipKeepsOccupancy(s: State, roomName: string)
    ensures Occupancy(HandleSkip(s, roomName)) == Occupancy(s)
  {
    var f := FindIndex(s.rooms, Named(roomName));
    if f.Some? {
      var i := f.value;
      var room := s.rooms[i];
      var k := room.queue;
      var q := Queue(s, k) + [room.u1, room.u2];
      var m := WithQueue(s.(rooms := RemoveAt(s.rooms, i)), k, q);
      UnseatingOccupancy(s, m, i, k, [room.u1, room.u2]);
      assert multiset([room.u1, room.u2]) == multiset{room.u1, room.u2};
      Cancel(Occupancy(m), Occupancy(s), multiset{room.u1, room.u2});
      var r := HandleSkip(s, roomName);
      SeatingKeepsOccupancy(m, r, k, r.rooms[|m.rooms|]);
    }
  }

  /** A join adds exactly one entry for the joiner. */
  lemma JoinAddsOne(s: State, k: Kind, id: ConnId)
    ensures Occupancy(JoinQueue(s, k, id)) == Occupancy(s) + multiset{id}
  {
    var s1 := WithQueue(s, k, AddToQ(Queue(s, k), id));
    var s2 := s1.(log := s1.log + [Emit(ToConn(id), Waiting(WaitingText))]);
    OccupancyByKind(s, k);
    OccupancyByKind(s2, k);
    MakeMatchKeepsOccupancy(s2, k);
  }

  /** The midpoint of a disconnect: the leaver's room spliced out and
      its peer pushed on the room's queue. */
  function Unseated(s: State, i: nat, id: ConnId): (m: State)
    requires i < |s.rooms|
    ensures m.rooms == RemoveAt(s.rooms, i)
  {
    var room := s.rooms[i];
    var other := if room.u1 == id then room.u2 else room.u1;
    WithQueue(s.(rooms := RemoveAt(s.rooms, i)), room.queue, Queue(s, room.queue) + [other])
  }

  lemma UnseatedOccupancy(s: State, i: nat, id: ConnId)
    requires i < |s.rooms| && HasMember(id)(s.rooms[i])
    ensures Occupancy(Unseated(s, i, id)) + multiset{id} == Occupancy(s)
  {
    var room := s.rooms[i];
    var k := room.queue;
    var other := if room.u1 == id then room.u2 else room.u1;
    var m := Unseated(s, i, id);
    UnseatingOccupancy(s, m, i, k, [other]);
    assert multiset{room.u1, room.u2} == multiset{id} + multiset{other};
    assert multiset([other]) == multiset{other};
    Cancel(Occupancy(m) + multiset{id}, Occupancy(s), multiset{other});
  }

  /** Before the purge, a disconnect takes the leaver's seat away and
      puts its peer back in line. */
  lemma VacateRoomOccupancy(s: State, id: ConnId)
    ensures FindIndex(s.rooms, HasMember(id)).Some? ==> Occupancy(VacateRoom(s, id)) + multiset{id} == Occupancy(s)
    ensures FindIndex(s.rooms, HasMember(id)).None? ==> VacateRoom(s, id) == s && RoomMembers(s.rooms)[id] == 0
  {
    var f := FindIndex(s.rooms, HasMember(id));
    if f.None? {
      NoSeat(s.rooms, id);
    } else {
      var i := f.value;
      var m := Unseated(s, i, id);
      UnseatedOccupancy(s, i, id);
      var k := s.rooms[i].queue;
      var r := VacateRoom(s, id);
      if |Queue(m, k)| >= 2 {
        SeatingKeepsOccupancy(m, r, k, r.rooms[|m.rooms|]);
      } else {
        OccupancyByKind(m, k);
        OccupancyByKind(r, k);
      }
    }
  }

  /** The purge drops every queue entry of `user` and nothing else. */
  lemma PurgeOccupancy(v: State, user: ConnId)
    ensures forall x :: x != user ==> Occupancy(RemoveUser(v, user))[x] == Occupancy(v)[x]
    ensures Occupancy(RemoveUser(v, user))[user] == RoomMembers(v.rooms)[user]
  {
    var r := RemoveUser(v, user);
    var t, w, m := multiset(v.textQueue), multiset(v.videoQueue), RoomMembers(v.rooms);
    assert Occupancy(r) == t[user := 0] + w[user := 0] + m;
    assert Occupancy(v) == t + w + m;
    forall x | x != user
      ensures Occupancy(r)[x] == Occupancy(v)[x]
    {
    }
  }

  lemma DisconnectIsVacateThenPurge(s: State, id: ConnId)
    ensures HandleDisconnect(s, id) == RemoveUser(VacateRoom(s, id), id)
  {
  }

  /** Losing one entry for `id` changes no other count. */
  lemma DropOne(ov: multiset<ConnId>, os: multiset<ConnId>, id: ConnId)
    requires ov + multiset{id} == os
    ensures forall x :: x != id ==> ov[x] == os[x]
    ensures ov[id] + 1 == os[id]
  {
    forall x | x != id
      ensures ov[x] == os[x]
    {
      assert (ov + multiset{id})[x] == ov[x];
    }
  }

  /** A disconnect leaves everyone else exactly where they were counted,
      and from an exclusive state leaves the leaver nowhere at all. */
  lemma DisconnectVacates(s: State, id: ConnId)
    ensures forall x :: x != id ==> Occupancy(HandleDisconnect(s, id))[x] == Occupancy(s)[x]
    ensures Exclusive(s) ==> Occupancy(HandleDisconnect(s, id))[id] == 0
  {
    var v := VacateRoom(s, id);
    DisconnectIsVacateThenPurge(s, id);
    VacateRoomOccupancy(s, id);
    PurgeOccupancy(v, id);
    if FindIndex(s.rooms, HasMember(id)).Some? {
      DropOne(Occupancy(v), Occupancy(s), id);
      assert RoomMembers(v.rooms)[id] <= Occupancy(v)[id];
    }
  }

  /** Pairing, skipping and disconnecting keep a state exclusive. */
  lemma LifecycleKeepsExclusive(s: State, k: Kind, roomName: string, id: ConnId)
    requires Exclusive(s)
    ensures Exclusive(MakeMatch(s, k))
    ensures Exclusive(HandleSkip(s, roomName))
    ensures Exclusive(HandleDisconnect(s, id))
  {
    MakeMatchKeepsOccupancy(s, k);
    SkipKeepsOccupancy(s, roomName);
    DisconnectVacates(s, id);
    var r := HandleDisconnect(s, id);
    forall x ensures Occupancy(r)[x] <= 1 {
      assert Occupancy(s)[x] <= 1;
    }
  }

  /** From an exclusive state, a join keeps it exclusive exactly when the
      joiner was neither waiting nor seated. */
  lemma JoinExclusiveIff(s: State, k: Kind, id: ConnId)
    requires Exclusive(s)
    ensures Exclusive(JoinQueue(s, k, id)) <==> Occupancy(s)[id] == 0
  {
    JoinAddsOne(s, k, id);
    if Occupancy(s)[id] == 0 {
      forall x ensures Occupancy(JoinQueue(s, k, id))[x] <= 1 {
        assert Occupancy(s)[x] <= 1;
      }
    } else {
      assert Occupancy(JoinQueue(s, k, id))[id] == 2;
    }
  }
}

=== FILE: queues.dfy ===
/** The three queue helpers of the server: `addToQ` pushes at the back,
    `removeFromQ` shifts the front, and the filter used by `removeUser`
    drops every occurrence of one connection. */
module Queues {
  import opened Wrappers

  /** `queue.push(user)`: no duplicate check, the user is appended even
      when already waiting. */
  function AddToQ<T>(q: seq<T>, user: T): (r: seq<T>)
    ensures |r| == |q| + 1
    ensures r[..|q|] == q
    ensures r[|q|] == user
  {
    q + [user]
  }

  /** `queue.shift()`: the front entry and what remains; an empty queue
      yields `undefined` (None) and stays empty. */
  function RemoveFromQ<T>(q: seq<T>): (r: (Option<T>, seq<T>))
    ensures |q| == 0 ==> r.0 == None && r.1 == q
    ensures |q| > 0 ==> r.0 == Some(q[0]) && [q[0]] + r.1 == q
  {
    if |q| == 0 then (None, q) else (Some(q[0]), q[1..])
  }

  /** Queues are first in, first out: shifting after a push returns what
      shifting before the push would have, and the pushed entry waits at
      the back of what remains. */
  lemma Fifo<T>(q: seq<T>, user: T)
    ensures |q| == 0 ==> RemoveFromQ(AddToQ(q, user)) == (Some(user), [])
    ensures |q| > 0 ==>
      RemoveFromQ(AddToQ(q, user)) == (RemoveFromQ(q).0, AddToQ(RemoveFromQ(q).1, user))
  {
    if |q| > 0 {
      assert (q + [user])[1..] == q[1..] + [user];
    }
  }

  /** `queue.filter((u) => u !== user)`. */
  function Without<T(==)>(q: seq<T>, user: T): (r: seq<T>)
    ensures user !in r
    ensures multiset(r) == multiset(q)[user := 0]
    ensures user !in q ==> r == q
    ensures |r| <= |q|
    decreases |q|
  {
    if |q| == 0 then []
    else
      assert q == [q[0]] + q[1..];
      (if q[0] == user then [] else [q[0]]) + Without(q[1..], user)
  }

  /** Filtering commutes with concatenation, so everyone who stays keeps
      the relative order they had. */
  lemma {:induction false} WithoutDistributes<T>(a: seq<T>, b: seq<T>, user: T)
    ensures Without(a + b, user) == Without(a, user) + Without(b, user)
    decreases |a|
  {
    if |a| > 0 {
      assert (a + b)[0] == a[0];
      assert (a + b)[1..] == a[1..] + b;
      WithoutDistributes(a[1..], b, user);
    } else {
      assert a + b == b;
    }
  }
}

=== FILE: relay.dfy ===
/** The in-room relay handlers `message`, `typing` and `stopTyping`.
    Each drops a malformed payload silently and otherwise forwards one
    event to the room the client named, excluding the sender; none of
    them reads or changes the queues or the room list. */
module Relay {
  import opened Payloads
  import opened ServerState
  import RoomNames

  /** `message` is dropped when `data`, `data.room` or `data.message` is falsy. */
  function OnMessage(s: State, sender: ConnId, data: Value): (r: State)
    ensures r.textQueue == s.textQueue && r.videoQueue == s.videoQueue
    ensures r.rooms == s.rooms && r.nextSerial == s.nextSerial
    ensures (!Truthy(data) || !Truthy(Get(data, "room")) || !Truthy(Get(data, "message"))) ==> r == s
    ensures (Truthy(data) && Truthy(Get(data, "room")) && Truthy(Get(data, "message"))) ==>
      r.log == s.log + [Emit(ToRoomExcept(Get(data, "room"), sender), Message(Get(data, "message")))]
  {
    if !Truthy(data) || !Truthy(Get(data, "room")) || !Truthy(Get(data, "message")) then s
    else s.(log := s.log + [Emit(ToRoomExcept(data.fields["room"], sender), Message(data.fields["message"]))])
  }

  /** `typing` is dropped when `data` or `data.room` is falsy; it forwards
      no payload. */
  function OnTyping(s: State, sender: ConnId, data: Value): (r: State)
    ensures r.textQueue == s.textQueue && r.videoQueue == s.videoQueue
    ensures r.rooms == s.rooms && r.nextSerial == s.nextSerial
    ensures (!Truthy(data) || !Truthy(Get(data, "room"))) ==> r == s
    ensures (Truthy(data) && Truthy(Get(data, "room"))) ==>
      r.log == s.log + [Emit(ToRoomExcept(Get(data, "room"), sender), Typing)]
  {
    if !Truthy(data) || !Truthy(Get(data, "room")) then s
    else s.(log := s.log + [Emit(ToRoomExcept(data.fields["room"], sender), Typing)])
  }

  /** `stopTyping`, guarded exactly like `typing`. */
  function OnStopTyping(s: State, sender: ConnId, data: Value): (r: State)
    ensures r.textQueue == s.textQueue && r.videoQueue == s.videoQueue
    ensures r.rooms == s.rooms && r.nextSerial == s.nextSerial
    ensures (!Truthy(data) || !Truthy(Get(data, "room"))) ==> r == s
    ensures (Truthy(data) && Truthy(Get(data, "room"))) ==>
      r.log == s.log + [Emit(ToRoomExcept(Get(data, "room"), sender), StopTyping)]
  {
    if !Truthy(data) || !Truthy(Get(data, "room")) then s
    else s.(log := s.log + [Emit(ToRoomExcept(data.fields["room"], sender), StopTyping)])
  }

  /** `x` is a member of an open room called `name`. */
  ghost predicate InRoom(s: State, name: string, x: ConnId)
  {
    exists i :: 0 <= i < |s.rooms| && s.rooms[i].name == name && (s.rooms[i].u1 == x || s.rooms[i].u2 == x)
  }

  /** Whom the transport delivers an output to, when socket.io room
      membership is that of the open rooms (the server joins both members
      when it opens a room and makes both leave when it tears it down). */
  ghost predicate Receives(s: State, out: Output, x: ConnId)
  {
    match out
    case Emit(ToConn(c), _) => x == c
    case Emit(ToRoom(n), _) => InRoom(s, n, x)
    case Emit(ToRoomExcept(key, sender), _) => key.Str? && InRoom(s, key.s, x) && x != sender
    case _ => false
  }

  /** A message one member of a room sends to that room reaches the other
      member and nobody else: not the sender, and no member of any other
      room. */
  lemma MessageReachesOnlyPeer(s: State, i: nat, sender: ConnId, data: Value)
    requires UniqueRoomNames(s)
    requires i < |s.rooms| && s.rooms[i].u1 != s.rooms[i].u2
    requires sender == s.rooms[i].u1 || sender == s.rooms[i].u2
    requires data.Obj? && "message" in data.fields && Truthy(data.fields["message"])
    requires "room" in data.fields && data.fields["room"] == Str(s.rooms[i].name)
    ensures var r := OnMessage(s, sender, data);
      && |r.log| == |s.log| + 1
      && forall x :: Receives(r, r.log[|s.log|], x) <==>
           x == (if sender == s.rooms[i].u1 then s.rooms[i].u2 else s.rooms[i].u1)
  {
    var room := s.rooms[i];
    var peer := if sender == room.u1 then room.u2 else room.u1;
    assert RoomNames.IssuedBefore(room.name, s.nextSerial);
    assert room.name != "" by {
      assert RoomNames.ParseDecimal(room.name).Some?;
    }
    var r := OnMessage(s, sender, data);
    forall x ensures Receives(r, r.log[|s.log|], x) <==> x == peer {
      if x == peer {
        assert InRoom(r, room.name, x) by { assert r.rooms[i] == room; }
      }
      if InRoom(r, room.name, x) {
        var j :| 0 <= j < |r.rooms| && r.rooms[j].name == room.name && (r.rooms[j].u1 == x || r.rooms[j].u2 == x);
        assert j == i;
      }
    }
  }

  /** The relay does not check that the sender belongs to the room it
      names: a message to an open room reaches both of its members other
      than the sender, whoever sends it. */
  lemma MessageReachesNamedRoom(s: State, i: nat, sender: ConnId, data: Value)
    requires UniqueRoomNames(s)
    requires i < |s.rooms|
    requires data.Obj? && "message" in data.fields && Truthy(data.fields["message"])
    requires "room" in data.fields && data.fields["room"] == Str(s.rooms[i].name)
    ensures var r := OnMessage(s, sender, data);
      && |r.log| == |s.log| + 1
      && forall x :: Receives(r, r.log[|s.log|], x) <==>
           (x == s.rooms[i].u1 || x == s.rooms[i].u2) && x != sender
  {
    var room := s.rooms[i];
    assert RoomNames.IssuedBefore(room.name, s.nextSerial);
    assert room.name != "" by {
      assert RoomNames.ParseDecimal(room.name).Some?;
    }
    var r := OnMessage(s, sender, data);
    forall x ensures Receives(r, r.log[|s.log|], x) <==> (x == room.u1 || x == room.u2) && x != sender {
      if x == room.u1 || x == room.u2 {
        assert InRoom(r, room.name, x) by { assert r.rooms[i] == room; }
      }
      if InRoom(r, room.name, x) {
        var j :| 0 <= j < |r.rooms| && r.rooms[j].name == room.name && (r.rooms[j].u1 == x || r.rooms[j].u2 == x);
        assert j == i;
      }
    }
  }
}

=== FILE: room_names.dfy ===
/** Room names.

    The server names every new room with a freshly generated UUID. The
    model replaces the random generator by a serial counter: the room
    created when the counter reads `n` is called by the decimal numeral
    of `n`. What the rest of the model needs from a UUID is only that a
    name is never handed out twice, and that follows from the numeral
    being parseable back to its serial. */
module RoomNames {
  import opened Wrappers

  function DigitChar(d: nat): char
    requires d < 10
  {
    ('0' as int + d) as char
  }

  /** The value of a decimal digit, or None for any other character. */
  function DigitValue(c: char): (r: Option<nat>)
    ensures r.Some? <==> '0' <= c <= '9'
    ensures r.Some? ==> r.value < 10 && DigitChar(r.value) == c
  {
    if '0' <= c <= '9' then Some(c as int - '0' as int) else None
  }

  /** The decimal numeral of `n`, most significant digit first, without
      leading zeros. */
  function Decimal(n: nat): (s: string)
    ensures 1 <= |s|
    decreases n
  {
    if n < 10 then [DigitChar(n)] else Decimal(n / 10) + [DigitChar(n % 10)]
  }

  /** Reads a non-empty string of decimal digits; None for anything else. */
  function ParseDecimal(s: string): Option<nat>
    decreases |s|
  {
    if |s| == 0 then None
    else
      match DigitValue(s[|s| - 1])
      case None => None
      case Some(d) =>
        if |s| == 1 then Some(d)
        else
          match ParseDecimal(s[..|s| - 1])
          case None => None
          case Some(v) => Some(10 * v + d)
  }

  lemma DigitRoundTrip(d: nat)
    requires d < 10
    ensures DigitValue(DigitChar(d)) == Some(d)
  {
  }

  /** Parsing a numeral gives back the number it was printed from. */
  lemma {:induction false} ParseDecimalInverts(n: nat)
    ensures ParseDecimal(Decimal(n)) == Some(n)
    decreases n
  {
    DigitRoundTrip(n % 10);
    if n >= 10 {
      ParseDecimalInverts(n / 10);
      var s := Decimal(n);
      assert s[..|s| - 1] == Decimal(n / 10);
      assert s[|s| - 1] == DigitChar(n % 10);
    }
  }

  /** The name given to the room created while the counter reads `serial`. */
  function IssuedName(serial: nat): string
  {
    Decimal(serial)
  }

  /** `name` is one the counter handed out before it reached `next`. */
  predicate IssuedBefore(name: string, next: nat)
  {
    var p := ParseDecimal(name);
    p.Some? && p.value < next
  }

  /** Two serials never share a name. */
  lemma IssuedNamesDistinct(m: nat, n: nat)
    ensures IssuedName(m) == IssuedName(n) <==> m == n
  {
    ParseDecimalInverts(m);
    ParseDecimalInverts(n);
  }

  /** The name the counter hands out next differs from every name it
      handed out before, and counts as handed out once the counter moves. */
  lemma FreshName(next: nat, name: string)
    requires IssuedBefore(name, next)
    ensures IssuedName(next) != name
    ensures IssuedBefore(IssuedName(next), next + 1)
  {
    ParseDecimalInverts(next);
  }

  lemma IssuedNameIssued(next: nat)
    ensures !IssuedBefore(IssuedName(next), next)
    ensures IssuedBefore(IssuedName(next), next + 1)
    ensures IssuedName(next) != ""
  {
    ParseDecimalInverts(next);
  }
}

=== FILE: scenarios.dfy ===
/** Properties of whole runs of handlers: first-come-first-served
    pairing, what a skip does when nobody else is waiting, the
    idempotence of a second skip, what a disconnect leaves behind, and a
    few concrete runs from an empty server. */
module Scenarios {
  import opened Wrappers
  import opened ServerState
  import opened Matchmaker
  import opened Presence
  import opened Dispatch
  import RoomNames

  /** Joins of the connections `ids`, in that order, to one queue. */
  function JoinAll(s: State, k: Kind, ids: seq<ConnId>): State
    decreases |ids|
  {
    if |ids| == 0 then s else JoinAll(JoinQueue(s, k, ids[0]), k, ids[1..])
  }

  /** First-come-first-served pairing as an independent definition: the
      first two arrivals share a room, then the next two, and so on, the
      rooms named in order by consecutive serials. */
  function PairUp(ids: seq<ConnId>, serial: nat, k: Kind): seq<Room>
    decreases |ids|
  {
    if |ids| < 2 then []
    else [Room(RoomNames.IssuedName(serial), ids[0], ids[1], k)] + PairUp(ids[2..], serial + 1, k)
  }

  /** The j-th room of a first-come-first-served pairing holds the
      (2j+1)-th and (2j+2)-th arrivals, in arrival order. */
  lemma {:induction false} PairUpPairsNeighbours(ids: seq<ConnId>, serial: nat, k: Kind)
    ensures |PairUp(ids, serial, k)| == |ids| / 2
    ensures forall j :: 0 <= j < |ids| / 2 ==>
      PairUp(ids, serial, k)[j] == Room(RoomNames.IssuedName(serial + j), ids[2 * j], ids[2 * j + 1], k)
    decreases |ids|
  {
    if |ids| >= 2 {
      var rest := ids[2..];
      PairUpPairsNeighbours(rest, serial + 1, k);
      forall j | 1 <= j < |ids| / 2
        ensures PairUp(ids, serial, k)[j] == Room(RoomNames.IssuedName(serial + j), ids[2 * j], ids[2 * j + 1], k)
      {
        assert PairUp(ids, serial, k)[j] == PairUp(rest, serial + 1, k)[j - 1];
        assert rest[2 * (j - 1)] == ids[2 * j];
      }
    }
  }

  /** Two joins to an empty queue: the first waits, the second pairs
      with it. */
  lemma TwoJoinsPair(s: State, k: Kind, a: ConnId, b: ConnId)
    requires Queue(s, k) == []
    ensures var s1 := JoinQueue(s, k, a);
      var s2 := JoinQueue(s1, k, b);
      && Queue(s1, k) == [a] && Queue(s1, Other(k)) == Queue(s, Other(k))
      && s1.rooms == s.rooms && s1.nextSerial == s.nextSerial
      && Queue(s2, k) == [] && Queue(s2, Other(k)) == Queue(s, Other(k))
      && s2.rooms == s.rooms + [Room(RoomNames.IssuedName(s.nextSerial), a, b, k)]
      && s2.nextSerial == s.nextSerial + 1
  {
    var s1 := JoinQueue(s, k, a);
    assert Queue(s1, k) == [a];
  }

  lemma ParityStep(n: nat)
    requires n >= 2
    ensures (n - 2) % 2 == n % 2 && (n - 2) / 2 + 1 == n / 2
  {
  }

  /** What first-come-first-served pairing of `ids` leaves behind, in
      terms of the state it started from. */
  predicate FifoOutcome(s: State, r: State, k: Kind, ids: seq<ConnId>)
  {
    && r.rooms == s.rooms + PairUp(ids, s.nextSerial, k)
    && Queue(r, k) == (if |ids| % 2 == 1 then [ids[|ids| - 1]] else [])
    && Queue(r, Other(k)) == Queue(s, Other(k))
    && r.nextSerial == s.nextSerial + |ids| / 2
  }

  /** Pairing the first two arrivals and then the rest first-come-
      first-served is pairing all of them first-come-first-served. */
  lemma FifoOutcomeStep(s: State, s2: State, r: State, k: Kind, ids: seq<ConnId>)
    requires |ids| >= 2
    requires Queue(s2, k) == [] && Queue(s2, Other(k)) == Queue(s, Other(k))
    requires s2.rooms == s.rooms + [Room(RoomNames.IssuedName(s.nextSerial), ids[0], ids[1], k)]
    requires s2.nextSerial == s.nextSerial + 1
    requires FifoOutcome(s2, r, k, ids[2..])
    ensures FifoOutcome(s, r, k, ids)
  {
    var rest := ids[2..];
    var room := Room(RoomNames.IssuedName(s.nextSerial), ids[0], ids[1], k);
    assert PairUp(ids, s.nextSerial, k) == [room] + PairUp(rest, s.nextSerial + 1, k);
    assert r.rooms == s.rooms + PairUp(ids, s.nextSerial, k);
    ParityStep(|ids|);
    if |ids| % 2 == 1 {
      assert rest[|rest| - 1] == ids[|ids| - 1];
    }
  }

  lemma JoinAllTwo(s: State, k: Kind, ids: seq<ConnId>)
    requires |ids| >= 2
    ensures JoinAll(s, k, ids) == JoinAll(JoinQueue(JoinQueue(s, k, ids[0]), k, ids[1]), k, ids[2..])
  {
    assert ids[1..][0] == ids[1] && ids[1..][1..] == ids[2..];
  }

  /** Starting from an empty queue, any sequence of joins to it pairs the
      arrivals first-come-first-served; an odd one out is left waiting. */
  lemma {:induction false} FifoPairing(s: State, k: Kind, ids: seq<ConnId>)
    requires Queue(s, k) == []
    ensures FifoOutcome(s, JoinAll(s, k, ids), k, ids)
    decreases |ids|
  {
    if |ids| == 0 {
      assert JoinAll(s, k, ids) == s;
    } else if |ids| == 1 {
      var s1 := JoinQueue(s, k, ids[0]);
      assert JoinAll(s, k, ids) == JoinAll(s1, k, []) == s1;
      TwoJoinsPair(s, k, ids[0], ids[0]);
    } else {
      var s2 := JoinQueue(JoinQueue(s, k, ids[0]), k, ids[1]);
      TwoJoinsPair(s, k, ids[0], ids[1]);
      JoinAllTwo(s, k, ids);
      FifoPairing(s2, k, ids[2..]);
      FifoOutcomeStep(s, s2, JoinAll(s, k, ids), k, ids);
    }
  }

  /** Skipping a room whose queue is otherwise empty puts the same two
      connections straight back into a new room under a new name; a
      single later joiner then waits alone. */
  lemma SkipAloneRepairsSamePair(s: State, i: nat, c: ConnId)
    requires UniqueRoomNames(s)
    requires i < |s.rooms| && Queue(s, s.rooms[i].queue) == []
    ensures var room := s.rooms[i];
      var r := HandleSkip(s, room.name);
      var newName := RoomNames.IssuedName(s.nextSerial);
      && newName != room.name
      && r.rooms == RemoveAt(s.rooms, i) + [Room(newName, room.u1, room.u2, room.queue)]
      && Queue(r, room.queue) == []
      && Queue(JoinQueue(r, room.queue, c), room.queue) == [c]
      && JoinQueue(r, room.queue, c).rooms == r.rooms
  {
    var room := s.rooms[i];
    var f := FindIndex(s.rooms, Named(room.name));
    assert Named(room.name)(s.rooms[i]);
    assert f == Some(i);
    RoomNames.FreshName(s.nextSerial, room.name);
  }

  /** A second skip of the same room is a no-op: no second teardown, no
      second re-queueing, no emits. */
  lemma SkipTwiceIsSkipOnce(s: State, name: string)
    requires UniqueRoomNames(s)
    ensures HandleSkip(HandleSkip(s, name), name) == HandleSkip(s, name)
  {
    var r := HandleSkip(s, name);
    var f := FindIndex(s.rooms, Named(name));
    if f.Some? {
      var i := f.value;
      var room := s.rooms[i];
      var newName := RoomNames.IssuedName(s.nextSerial);
      RoomNames.FreshName(s.nextSerial, name);
      var kept := RemoveAt(s.rooms, i);
      assert r.rooms[..|kept|] == kept;
      forall j | 0 <= j < |r.rooms|
        ensures r.rooms[j].name != name
      {
        if j < i {
          assert r.rooms[j] == s.rooms[j];
        } else if j < |kept| {
          assert r.rooms[j] == s.rooms[j + 1];
        } else {
          assert r.rooms[j].name == newName;
        }
      }
    }
  }

  /** The peer of a disconnecting connection is not lost: it is still
      counted exactly once, waiting or already re-paired, while the
      leaver is counted nowhere. */
  lemma DisconnectKeepsPeer(s: State, id: ConnId, i: nat)
    requires Exclusive(s)
    requires FindIndex(s.rooms, HasMember(id)) == Some(i)
    ensures var room := s.rooms[i];
      var peer := if room.u1 == id then room.u2 else room.u1;
      var r := HandleDisconnect(s, id);
      && peer != id
      && Occupancy(r)[id] == 0
      && Occupancy(r)[peer] == 1
  {
    var room := s.rooms[i];
    var peer := if room.u1 == id then room.u2 else room.u1;
    RoomMembersRemoveAt(s.rooms, i);
    assert Occupancy(s)[room.u1] <= 1;
    DisconnectVacates(s, id);
    assert Occupancy(s)[peer] >= 1;
  }

  /** After a disconnect the leaver's room is gone for good: no open room
      carries its name, not even the one its peer may have been re-paired
      into. */
  lemma DisconnectRemovesRoom(s: State, id: ConnId, i: nat)
    requires UniqueRoomNames(s)
    requires FindIndex(s.rooms, HasMember(id)) == Some(i)
    ensures forall j :: 0 <= j < |HandleDisconnect(s, id).rooms| ==> HandleDisconnect(s, id).rooms[j].name != s.rooms[i].name
  {
    var room := s.rooms[i];
    DisconnectIsVacateThenPurge(s, id);
    VacateRoomsShape(s, id, i);
    var r := VacateRoom(s, id);
    RoomNames.FreshName(s.nextSerial, room.name);
    var kept := RemoveAt(s.rooms, i);
    forall j | 0 <= j < |r.rooms|
      ensures r.rooms[j].name != room.name
    {
      if j < i {
        assert r.rooms[j] == kept[j] == s.rooms[j];
      } else if j < |kept| {
        assert r.rooms[j] == kept[j] == s.rooms[j + 1];
      }
    }
  }

  /** A disconnect announces `peer-disconnected` to the room exactly once,
      first, before anything else it sends. */
  lemma DisconnectNotifiesOnce(s: State, id: ConnId, i: nat)
    requires FindIndex(s.rooms, HasMember(id)) == Some(i)
    ensures var r := HandleDisconnect(s, id);
      var notice := Emit(ToRoom(s.rooms[i].name), PeerDisconnected);
      && |r.log| > |s.log|
      && r.log[|s.log|] == notice
      && forall j :: |s.log| < j < |r.log| ==> r.log[j] != notice
  {
    DisconnectIsVacateThenPurge(s, id);
    VacateLogShape(s, id, i);
    NoticeFirstAndOnly(s.log, VacateRoom(s, id).log, s.rooms[i]);
  }

  /** A log that continues with a teardown and then only pairing notices
      carries the teardown's `peer-disconnected` once. */
  lemma NoticeFirstAndOnly(before: seq<Output>, after: seq<Output>, room: Room)
    requires |after| >= |before| + 3 && after[..|before| + 3] == before + Teardown(room)
    requires forall o :: o in after[|before| + 3..] ==> !(o.Emit? && o.event == PeerDisconnected)
    ensures after[|before|] == Emit(ToRoom(room.name), PeerDisconnected)
    ensures forall j :: |before| < j < |after| ==> after[j] != Emit(ToRoom(room.name), PeerDisconnected)
  {
    var n := |before|;
    assert after[n] == after[..n + 3][n];
    forall j | n < j < |after|
      ensures after[j] != Emit(ToRoom(room.name), PeerDisconnected)
    {
      if j < n + 3 {
        assert after[j] == after[..n + 3][j];
      } else {
        assert after[j] == after[n + 3..][j - n - 3];
      }
    }
  }

  /** Two text joiners on an empty server share room "0" and each hear
      `match-found` with it; nobody else is mentioned. */
  lemma TwoJoinersShareARoom()
    ensures var r := Run(Initial, [Tc("A"), Tc("B")]);
      && r.rooms == [Room("0", "A", "B", Text)]
      && r.textQueue == [] && r.videoQueue == []
      && r.log == [Emit(ToConn("A"), Waiting(WaitingText)), Emit(ToConn("B"), Waiting(WaitingText)),
                   Join("A", "0"), Join("B", "0"),
                   Emit(ToConn("A"), MatchFound("0")), Emit(ToConn("B"), MatchFound("0"))]
  {
    assert RoomNames.IssuedName(0) == "0";
    var s1 := Handle(Initial, Tc("A"));
    var s2 := Handle(s1, Tc("B"));
    assert Run(Initial, [Tc("A"), Tc("B")]) == Run(s1, [Tc("B")]);
    assert Run(s1, [Tc("B")]) == Run(s2, []);
  }

  /** Two video joiners: the first to arrive is told it initiates the
      call, the second that it does not. */
  lemma VideoPairingIsAsymmetric()
    ensures var r := Run(Initial, [Vc("A"), Vc("B")]);
      && r.rooms == [Room("0", "A", "B", Video)]
      && r.log[|r.log| - 2..] == [Emit(ToConn("A"), Ready(true)), Emit(ToConn("B"), Ready(false))]
  {
    assert RoomNames.IssuedName(0) == "0";
    var s1 := Handle(Initial, Vc("A"));
    assert Queue(s1, Video) == ["A"] && s1.rooms == [] && s1.nextSerial == 0;
    var s2 := Handle(s1, Vc("B"));
    VideoPairingTail(s1, s2);
    assert Run(Initial, [Vc("A"), Vc("B")]) == Run(s1, [Vc("B")]) == s2;
  }

  lemma VideoPairingTail(s1: State, s2: State)
    requires Queue(s1, Video) == ["A"] && s1.rooms == [] && s1.nextSerial == 0
    requires s2 == JoinQueue(s1, Video, "B")
    ensures s2.rooms == [Room("0", "A", "B", Video)]
    ensures s2.log[|s2.log| - 2..] == [Emit(ToConn("A"), Ready(true)), Emit(ToConn("B"), Ready(false))]
  {
    assert RoomNames.IssuedName(0) == "0";
    var p := Pairing("A", "B", "0", Video);
    assert s2.log == s1.log + [Emit(ToConn("B"), Waiting(WaitingText))] + p;
    assert s2.log[|s2.log| - 2..] == p[4..];
  }

  /** Joining twice is not refused: a connection that sends `tc` twice on
      an empty server is paired with itself. */
  lemma DoubleJoinPairsWithSelf()
    ensures Run(Initial, [Tc("A"), Tc("A")]).rooms == [Room("0", "A", "A", Text)]
  {
    assert RoomNames.IssuedName(0) == "0";
    var s1 := Handle(Initial, Tc("A"));
    var s2 := Handle(s1, Tc("A"));
    assert Run(Initial, [Tc("A"), Tc("A")]) == Run(s1, [Tc("A")]);
    assert Run(s1, [Tc("A")]) == Run(s2, []);
  }

  /** Four text joins, A, B, A and C, from an empty server: A is seated
      twice, once with B and once with C, and nobody waits. */
  lemma RejoinSeatsTwice()
    ensures var r := Run(Initial, [Tc("A"), Tc("B"), Tc("A"), Tc("C")]);
      && r.rooms == [Room("0", "A", "B", Text), Room("1", "A", "C", Text)]
      && r.textQueue == [] && r.videoQueue == []
  {
    assert RoomNames.IssuedName(0) == "0";
    assert RoomNames.IssuedName(1) == "1";
    var ins := [Tc("A"), Tc("B"), Tc("A"), Tc("C")];
    var s1 := Handle(Initial, Tc("A"));
    assert s1.textQueue == ["A"] && s1.videoQueue == [] && s1.rooms == [] && s1.nextSerial == 0;
    var s2 := Handle(s1, Tc("B"));
    assert s2.textQueue == [] && s2.videoQueue == [] && s2.rooms == [Room("0", "A", "B", Text)] && s2.nextSerial == 1;
    var s3 := Handle(s2, Tc("A"));
    assert s3.textQueue == ["A"] && s3.videoQueue == [] && s3.rooms == s2.rooms && s3.nextSerial == 1;
    var s4 := Handle(s3, Tc("C"));
    assert s4.rooms == [Room("0", "A", "B", Text), Room("1", "A", "C", Text)];
    assert ins[1..][1..][1..] == [Tc("C")];
    assert Run(Initial, ins) == Run(s1, ins[1..]) == Run(s2, ins[1..][1..]) == Run(s3, [Tc("C")]) == s4;
  }

  /** A disconnect of A from a state where A sits in two rooms tears down
      only the first; B goes back to the queue, A stays seated with C. */
  lemma DisconnectFromTwoSeats(s: State)
    requires s.rooms == [Room("0", "A", "B", Text), Room("1", "A", "C", Text)]
    requires s.textQueue == [] && s.videoQueue == []
    ensures var r := HandleDisconnect(s, "A");
      && r.rooms == [Room("1", "A", "C", Text)]
      && r.textQueue == ["B"]
      && Occupancy(r)["A"] == 1
  {
    assert HasMember("A")(s.rooms[0]);
    assert FindIndex(s.rooms, HasMember("A")) == Some(0);
    var r := HandleDisconnect(s, "A");
    assert r.rooms == [Room("1", "A", "C", Text)];
    assert r.textQueue == ["B"] && r.videoQueue == [];
    assert r.rooms[1..] == [];
    assert RoomMembers(r.rooms) == multiset{"A", "C"};
  }

  /** A connection that joins again while seated is paired a second time;
      when it disconnects, only its first room is torn down and it stays
      seated in the second. */
  lemma RejoinThenDisconnectLeavesSeat()
    ensures var r := HandleDisconnect(Run(Initial, [Tc("A"), Tc("B"), Tc("A"), Tc("C")]), "A");
      && r.rooms == [Room("1", "A", "C", Text)]
      && r.textQueue == ["B"]
      && Occupancy(r)["A"] == 1
  {
    RejoinSeatsTwice();
    DisconnectFromTwoSeats(Run(Initial, [Tc("A"), Tc("B"), Tc("A"), Tc("C")]));
  }

  /** A connection that waits in a queue while still seated, and then
      disconnects, has its room torn down and its peer paired straight
      back with it: the peer ends up in a new room with a connection that
      is gone. */
  lemma DisconnectRepairsWithLeaver(s: State)
    requires s.rooms == [Room("1", "A", "B", Text)]
    requires s.textQueue == ["A"] && s.videoQueue == [] && s.nextSerial == 2
    ensures var r := HandleDisconnect(s, "A");
      && r.rooms == [Room("2", "A", "B", Text)]
      && r.textQueue == [] && r.videoQueue == []
      && Occupancy(r)["A"] == 1
  {
    assert RoomNames.IssuedName(2) == "2";
    assert HasMember("A")(s.rooms[0]);
    assert FindIndex(s.rooms, HasMember("A")) == Some(0);
    var r := HandleDisconnect(s, "A");
    assert r.rooms == [Room("2", "A", "B", Text)];
    assert r.textQueue == [] && r.videoQueue == [];
    assert r.rooms[1..] == [];
    assert RoomMembers(r.rooms) == multiset{"A", "B"};
  }
}

=== FILE: server_state.dfy ===
/** The server's process-wide state: the text and video waiting queues,
    the list of open rooms, the counter standing in for the UUID
    generator, and the ordered log of everything the server asked the
    transport to do (emits, room joins and leaves). */
module ServerState {
  import opened Wrappers
  import opened Payloads
  import RoomNames

  /** A socket.io connection id. */
  type ConnId = string

  /** The queue a room came from. The server stores it as the string
      "text" or "video"; no other string is ever stored. */
  datatype Kind = Text | Video

  datatype Room = Room(name: string, u1: ConnId, u2: ConnId, queue: Kind)

  /** Where an emit goes: one connection (`io.to(id)`), every socket in a
      room (`io.to(name)`), or every socket in a room but the sender
      (`socket.to(data.room)`, whose key is whatever the client sent). */
  datatype Target =
    | ToConn(conn: ConnId)
    | ToRoom(room: string)
    | ToRoomExcept(key: Value, sender: ConnId)

  datatype Event =
    | Waiting(text: string)
    | MatchFound(room: string)
    | Ready(initiator: bool)
    | PeerDisconnected
    | Message(body: Value)
    | Typing
    | StopTyping

  /** One request to the transport, in the order the handlers make them. */
  datatype Output =
    | Join(conn: ConnId, room: string)
    | Leave(conn: ConnId, room: string)
    | Emit(to: Target, event: Event)

  datatype State = State(
    textQueue: seq<ConnId>,
    videoQueue: seq<ConnId>,
    rooms: seq<Room>,
    nextSerial: nat,
    log: seq<Output>)

  /** The state at process start: nothing waiting, no rooms. */
  const Initial: State := State([], [], [], 0, [])

  const WaitingText: string := "Finding a match for you..."

  function Other(k: Kind): Kind
  {
    match k
    case Text => Video
    case Video => Text
  }

  /** The queue rooms of kind `k` are drawn from. */
  function Queue(s: State, k: Kind): seq<ConnId>
  {
    match k
    case Text => s.textQueue
    case Video => s.videoQueue
  }

  /** Replaces the queue of kind `k`; nothing else changes. */
  function WithQueue(s: State, k: Kind, q: seq<ConnId>): (r: State)
    ensures Queue(r, k) == q
    ensures Queue(r, Other(k)) == Queue(s, Other(k))
    ensures r.rooms == s.rooms && r.nextSerial == s.nextSerial && r.log == s.log
  {
    match k
    case Text => s.(textQueue := q)
    case Video => s.(videoQueue := q)
  }

  /** `Array.prototype.findIndex`: the first position whose element
      satisfies `p`, or None (the source's -1) when there is none. */
  function FindIndex<T>(xs: seq<T>, p: T -> bool): (r: Option<nat>)
    ensures r.Some? ==> r.value < |xs| && p(xs[r.value])
    ensures r.Some? ==> forall j :: 0 <= j < r.value ==> !p(xs[j])
    ensures r.None? <==> forall j :: 0 <= j < |xs| ==> !p(xs[j])
    decreases |xs|
  {
    if |xs| == 0 then None
    else if p(xs[0]) then Some(0)
    else
      match FindIndex(xs[1..], p)
      case None => None
      case Some(i) => Some(i + 1)
  }

  function Named(name: string): Room -> bool
  {
    (r: Room) => r.name == name
  }

  function HasMember(id: ConnId): Room -> bool
  {
    (r: Room) => r.u1 == id || r.u2 == id
  }

  /** `rooms.splice(i, 1)`: drops position `i`, everything after it
      moves up one place. */
  function RemoveAt<T>(xs: seq<T>, i: nat): (r: seq<T>)
    requires i < |xs|
    ensures |r| == |xs| - 1
    ensures forall j :: 0 <= j < i ==> r[j] == xs[j]
    ensures forall j :: i <= j < |r| ==> r[j] == xs[j + 1]
  {
    xs[..i] + xs[i + 1..]
  }

  /** Room names are never reused: every open room carries a name the
      counter handed out, and no two open rooms share one. */
  predicate UniqueRoomNames(s: State)
  {
    && (forall i :: 0 <= i < |s.rooms| ==> RoomNames.IssuedBefore(s.rooms[i].name, s.nextSerial))
    && (forall i, j :: 0 <= i < j < |s.rooms| ==> s.rooms[i].name != s.rooms[j].name)
  }
}

=== FILE: wrappers.dfy ===
/** The optional value used wherever the server may find nothing:
    a shifted empty queue, a `findIndex` that matches no room, a
    string that is not a decimal numeral. */
module Wrappers {

  datatype Option<+T> = None | Some(value: T)
}
